=== FILE: README.md ===
# Activation farming: a Dafny model

This project models the core of `scripts/00_farm_activations.py`. That script runs
a pretrained sequence model over a dataset split in fixed-size batches. It
captures the output of every attention block through forward hooks and writes
each layer's captures to disk. The layout is
`data_dir/dataset_name/model/layer/timestamp/`, holding one `metadata.json` and
one `activations_{batch_idx}.pt` per batch.

The model covers four parts of the script:

- **Hook manager** (`register_hooks`, `hook_fn`) in module `Hooks`. A hook goes on
  every layer whose printed type contains `AttentionBlock`. A firing appends one
  `{name, output}` record to a shared, append-only buffer. The record holds the
  first element of a tuple output, or else the output itself.
- **Persistence writer** (`save_batch_activations`, `save_metadata`) in module
  `Storage`. The file system is a `map<Path, Content>`. A metadata document is
  written only when the destination has none. A payload is written for every
  buffer record.
- **Run driver** (`run_inference`) in module `Driver`. It builds the dataset name
  and the run metadata, then loops over `range(0, n, batch_size)`. Each batch is
  sliced, prepared, run forward, saved, and the buffer is cleared. Hooks are
  removed in the `finally` block.
- **Batch arithmetic** in module `Batching`: offsets, batch indices and slices.
  `Text` holds substring search, character replacement and decimal rendering.

Exceptions are modelled as values. A forward pass, a save or a whole batch
returns its result together with an optional `Error`. On every path, including a failed save, no file is ever
deleted, and every `metadata.json` the run creates describes its layer's
earliest captured record. The loop stops at the first batch that raises.
After that, hook removal runs on both paths.

Several behaviours of the code are worth stating explicitly:

- A model with no matching layer is not an error. Registration returns no
  hooks, and the run writes nothing (`Driver.NoTargetsNoFiles`).
- The buffer is cleared only after a successful save. A failed batch leaves its
  records in the buffer, as `Driver.RunInference` states, and the run stops.
- Outputs are not checked when hooks are installed. A non-tensor output raises
  (`AttributeError` on `.to`) inside the hook, during the forward pass. An empty
  tuple raises `IndexError`. A 0-dimensional tensor makes `shape[-1]` raise
  when its metadata is built.
- A batch size of zero makes `range` raise inside the `try`, so the hooks are
  still removed. A negative batch size gives an empty range and a run that
  completes without writing anything.
- A layer that fires twice in one forward pass gets two buffer records. Both
  write the same payload path, so the later one wins
  (`Storage.SaveBatch` states this through `LastWith`). The metadata document
  describes the earliest record (`FirstWith`).

## Model

| member | source | states |
|---|---|---|
| Text.Contains | scripts/00_farm_activations.py:41 | the `in` test on strings holds exactly when the pattern occurs at some position of the string |
| Text.ReplaceChar | scripts/00_farm_activations.py:89 | the result has the input's length; every `from` character becomes `to` and every other character stays where it was |
| Text.NatToString | scripts/00_farm_activations.py:68 | the decimal rendering of a batch index is non-empty, all digits, and has no leading zero unless the index is zero |
| Text.ParseNatToString | scripts/00_farm_activations.py:68 | parsing the decimal rendering of an index gives back the index |
| Text.NatToStringInjective | scripts/00_farm_activations.py:68 | two different indices never render as the same decimal string |
| Batching.Offsets | scripts/00_farm_activations.py:107 | `range(0, n, step)` with a negative step yields no offsets |
| Batching.Range | scripts/00_farm_activations.py:107 | every offset of `range(start, stop, step)` lies in `[start, stop)` |
| Batching.OffsetsAreMultiples | scripts/00_farm_activations.py:107-109 | there are ceil(n/b) offsets; offset k is `k*b`; its `offset // b` index is k, so the indices are dense, increasing and distinct |
| Batching.IndexOfOffset | scripts/00_farm_activations.py:109 | the batch index of offset `k*b` is exactly k |
| Batching.CountBounds | scripts/00_farm_activations.py:107 | ceil(n/b) batches reach past the last record, and one batch fewer does not |
| Batching.BatchOfRecord | scripts/00_farm_activations.py:107-109 | record j lies in the slice of batch k iff k = j // b, and that batch is among the run's: the slices are disjoint and cover `[0, n)` |
| Batching.BatchSizes | scripts/00_farm_activations.py:107-108 | every batch of the run holds 1 to b records; all but the last hold exactly b; the last holds `n - k*b` |
| Batching.BatchesCover | scripts/00_farm_activations.py:107-108 | concatenating the run's batches in order gives back the whole dataset |
| Batching.FiveRecordsInPairs | scripts/00_farm_activations.py:107-109 | five records in pairs give offsets 0, 2, 4, indices 0, 1, 2, and a last batch of one record |
| Hooks.RegisterHooks | scripts/00_farm_activations.py:35-57 | one handle per layer whose type mentions `AttentionBlock`, in the order `named_modules` visits them, with consecutive ids; the hooked names are exactly the matching layers' names; no match gives no hooks and no error |
| Hooks.RemoveHooks | scripts/00_farm_activations.py:130-133 | removing the handles one at a time takes exactly the run's handles out of the live set |
| Hooks.Capture | scripts/00_farm_activations.py:45-53 | the captured tensor is `output[0]` for a tuple and `output` otherwise; an empty tuple or a non-tensor raises; the record carries the layer's name |
| Hooks.Fire | scripts/00_farm_activations.py:43-53 | a firing of a hooked layer appends exactly one record, or raises and appends nothing; other layers leave the buffer unchanged |
| Hooks.ForwardPass | scripts/00_farm_activations.py:43-53 | earlier buffer entries are kept; new entries come only from hooked layers; the pass raises iff some hooked firing cannot be captured; otherwise it appends the captures in firing order |
| Hooks.ExpectedCount | scripts/00_farm_activations.py:50-53 | when no hook raises, the buffer grows by exactly one record per hooked firing |
| Storage.PayloadFileInjective | scripts/00_farm_activations.py:68 | payload file names of different batch indices differ, so batches never overwrite each other's payloads |
| Storage.BuildMetadata | scripts/00_farm_activations.py:71-75 | the document holds the run-level fields, `module_name` = the record's layer and `embed_dim` = the last axis of its tensor; a 0-d tensor raises |
| Storage.Write | scripts/00_farm_activations.py:69-77 | a write (`torch.save` of a payload, or the metadata `json.dump`) succeeds iff its path can be written; it then stores the content at that path and changes nothing else |
| Storage.PayloadNotMetadata | scripts/00_farm_activations.py:64-68 | a payload file is never named `metadata.json`, so payload writes never change the answer of the metadata check |
| Storage.SaveRecord | scripts/00_farm_activations.py:61-69 | only the record's metadata and payload paths change; existing metadata is kept; a missing one is written from the record; the payload `(tensor, seq_lengths)` is written; it succeeds iff those writes can happen; whether or not it fails, no file is deleted and a metadata document it creates is the record's own |
| Storage.SaveBatch | scripts/00_farm_activations.py:59-69 | only the buffer layers' metadata and batch-k payload paths change; existing metadata is never rewritten; it succeeds iff no needed write fails; then each layer's payload holds its latest record and new metadata describes its earliest; when it fails part-way, no file is deleted and every metadata document it created still describes its layer's earliest record |
| Driver.DatasetName | scripts/00_farm_activations.py:88-89 | the dataset name contains no `/` and is as long as `DATASET_ID-split-subsplit` |
| Driver.DatasetNameOfPlainSplit | scripts/00_farm_activations.py:88-89 | for a split without `/`, the name is `LongSafari_open-genome-<split>-validation` |
| Driver.ProcessBatch | scripts/00_farm_activations.py:107-128 | one iteration: it succeeds iff preparation, forward pass and save all succeed; then the buffer is empty; on failure it keeps the batch's captures; a failed preparation or forward pass raises its own exception and writes nothing; it touches only that batch's paths, never rewrites metadata and never deletes a file; any metadata it creates describes the batch's earliest record of that layer |
| Driver.Advance | scripts/00_farm_activations.py:107-128 | an iteration raises iff its batch cannot succeed given the starting file system and the earlier batches; it extends the run invariant to one more completed batch; when it raises in its save, the invariant covers one more attempted batch; when it raises in preparation or the forward pass, the file system is unchanged; after any raise, no file of the run's start is gone and every new metadata document describes its layer's earliest record among the batches attempted |
| Driver.MetadataPresent | scripts/00_farm_activations.py:64-66 | after k completed batches a layer's `metadata.json` exists iff it existed before the run or one of those batches captured the layer |
| Driver.ProgressWidens | scripts/00_farm_activations.py:106-128 | the run invariant over the batches that reached their save implies the one over one more batch: stopping before the save only narrows what may have changed |
| Driver.BatchOkFromState | scripts/00_farm_activations.py:106-128 | whether batch k succeeds on the file system built so far is decided by the starting file system and the captures of batches before k |
| Driver.RunBatches | scripts/00_farm_activations.py:106-128 | every completed batch could succeed; the loop completes after all ceil(n/b) batches with an empty buffer, or aborts at a batch that cannot succeed, holding that batch's captures; payloads of every completed batch and metadata of every captured layer are in place; existing metadata is kept; outside those layers' metadata and the payloads of the batches that reached their save, nothing changed, so an abort in preparation or the forward pass adds no write; however the loop ends, no file is deleted and every new metadata document describes its layer's earliest record among the batches that reached their save |
| Driver.RunInference | scripts/00_farm_activations.py:79-133 | the hooks installed are fresh handles on exactly the matching layers, in traversal order, and every one is removed whether the loop completes or raises; a zero batch size raises, a negative one processes nothing; otherwise every completed batch could succeed, an abort happens exactly at the first batch that cannot, and the run invariant of `RunBatches` holds, including that no file is deleted and new metadata describes each layer's earliest record |
| Hooks.FirstFault | scripts/00_farm_activations.py:43-53 | the position it gives is that of the earliest firing whose hook raises: every firing before it is captured without error, and when it is in range its hook raises |
| Hooks.PassRaises | scripts/00_farm_activations.py:43-53 | a pass that raises stops at the first firing whose hook raises: the earlier firings' captures are kept in order and that hook's exception is the one raised |
| Storage.StepSound | scripts/00_farm_activations.py:61-69 | saving one more record, whether it succeeds or raises, keeps every new metadata document describing its layer's earliest record in the buffer |
| Storage.SoundPrefix | scripts/00_farm_activations.py:61 | a layer's earliest record in the part of the buffer already saved is its earliest in the whole buffer |
| Driver.ProgressSound | scripts/00_farm_activations.py:106-128 | after any number of completed batches no file of the run's start is gone and every new metadata document describes its layer's earliest captured record |
| Driver.SoundStep | scripts/00_farm_activations.py:106-128 | a batch's save, even one that raises part-way, keeps that property over one more batch |
| Storage.Dir | scripts/00_farm_activations.py:62 | definition: a layer's destination is `data_dir / dataset_name / model / layer / timestamp` |
| Storage.MetaPath | scripts/00_farm_activations.py:64 | definition: the metadata document is `metadata.json` in the layer's destination |
| Storage.PayloadFile | scripts/00_farm_activations.py:68 | definition: batch k's payload file is named `activations_{k}.pt` |
| Storage.PayloadPath | scripts/00_farm_activations.py:68 | definition: batch k's payload lies in the layer's destination |
| Driver.RunMeta | scripts/00_farm_activations.py:95-103 | definition: the run-level metadata holds `data_dir`, `dataset_split`, the `validation` subsplit, `batch_size`, `max_seq_length`, `base_model` and `timestamp` |
| Driver.RunLayout | scripts/00_farm_activations.py:125 | definition: every save of the run uses `data_dir`, the derived dataset name, the model name and the run's timestamp |
| Batching.Slice | scripts/00_farm_activations.py:108 | definition: `xs[i:i + b]` with both bounds clamped to the length |
| Batching.Batch | scripts/00_farm_activations.py:108 | definition: batch k is the slice starting at `k * b` |
| Batching.BatchIndex | scripts/00_farm_activations.py:109 | definition: the batch index is `offset // batch_size` |
| Hooks.TargetNames | scripts/00_farm_activations.py:40-41 | definition: the names of the modules whose printed type contains `AttentionBlock` |
| Hooks.TargetOrder | scripts/00_farm_activations.py:40-41 | definition: the same names in the order `named_modules` visits them |
| Driver.BatchFired | scripts/00_farm_activations.py:112-122 | definition: batch k is prepared and run forward from an empty buffer; a failed preparation captures nothing, and a model that raises after the hooks ran raises `ModelRaised` |
| Hooks.UnhookedPass | scripts/00_farm_activations.py:40-53 | with no layer hooked, a forward pass leaves the buffer unchanged and never raises |
| Driver.NothingCaptured | scripts/00_farm_activations.py:40-53 | with no hooked layer, no batch captures anything |
| Driver.NoTargetsNoFiles | scripts/00_farm_activations.py:40-69 | with no hooked layer, a run leaves the file system exactly as it found it |

## Left out

- Tensor conversion (`.to(torch.float32).detach().cpu()`) is the identity here. A tensor is an opaque value with a shape.
- Model loading (`Evo(...)`), device choice, `model.eval()` and `torch.no_grad()` are library internals. The forward pass is a function from prepared input to the layer firings it causes and whether the model then raises. An exception inside the model, or a result that does not unpack into a pair, is one `ModelRaised` error after the listed firings; where inside the pass it happens matters only through which firings precede it.
- `prepare_batch` is an opaque function from a batch's texts to token ids and `seq_lengths`, or to a failure; it is not part of this model. Tokeniser, `max_seq_length` and `prepend_bos` are folded into it.
- `load_dataset` network and disk I/O: the dataset is its `text` column as a sequence of strings.
- `argparse` parsing and its `choices` check: `Args` is taken as given, and any split string is accepted.
- `time.strftime`: the timestamp is a parameter.
- Directories: `mkdir(parents=True, exist_ok=True)` has no effect on the model, and directories are not entries of the map. Path components are not normalised, so a component containing `/` stays one component.
- JSON and `torch.save` encodings, key order and indentation: a file's content is the value written.
- Write failures are a fixed set of unwritable paths. A failing write leaves nothing behind; a half-written `metadata.json` is not modelled.
- Python aliasing of the shared `experiment_metadata` dict: each written document equals the run fields plus that record's `module_name` and `embed_dim`.
- Hook ids follow PyTorch's global counter only in being fresh and consecutive. Layer names from `named_modules` are taken as given.
- Process interruption (`KeyboardInterrupt`) is not modelled separately; any exception ends the loop the same way.
- `tqdm` progress reporting, `main` and `parse_args`.
- Driver.RunInference: states that an aborted run stopped at the first batch that cannot succeed, but not which exception value it carries; `Driver.ProcessBatch` states the exception of a failed preparation or forward pass, while a failed save is stated only as failing.

=== FILE: batching.dfy ===
/** How the run walks the dataset: the offsets of `range(0, n, batch_size)`,
    the batch index `offset // batch_size`, and the slice
    `dataset[offset:offset + batch_size]` each offset selects. */
module Batching {

  function Min(a: int, b: int): int
  {
    if a <= b then a else b
  }

  /** Python's `range(start, stop, step)` for a positive step. */
  function Range(start: int, stop: int, step: int): (r: seq<int>)
    requires step > 0
    ensures forall x :: x in r ==> start <= x < stop
    decreases stop - start
  {
    if start >= stop then [] else [start] + Range(start + step, stop, step)
  }

  /** Python's `range(0, n, step)` for a dataset of length `n`: a zero step is
      the caller's `ValueError`; a negative one yields nothing because `0 >= n`. */
  function Offsets(n: nat, step: int): (r: seq<int>)
    requires step != 0
    ensures step < 0 ==> r == []
  {
    if step > 0 then Range(0, n, step) else []
  }

  /** ceil(n / b): the number of batches of size `b` that cover `n` records. */
  function BatchCount(n: nat, b: int): nat
    requires b > 0
  {
    (n + b - 1) / b
  }

  /** The batch index the run derives from an offset, `offset // b`. */
  function BatchIndex(offset: nat, b: int): nat
    requires b > 0
  {
    offset / b
  }

  /** Python's slice `xs[i:i + b]` for `i >= 0`, `b > 0`: bounds are clamped
      to the length, so the last batch may be short. */
  function Slice<T>(xs: seq<T>, i: nat, b: int): (r: seq<T>)
    requires b > 0
  {
    xs[Min(i, |xs|)..Min(i + b, |xs|)]
  }

  /** The records of batch `k`. */
  function Batch<T>(xs: seq<T>, b: int, k: nat): seq<T>
    requires b > 0
  {
    Slice(xs, k * b, b)
  }

  /** Quotient and remainder are determined by `a == q * b + r`, `0 <= r < b`. */
  lemma DivUnique(a: int, b: int, q: int, r: int)
    requires b > 0 && 0 <= r < b && a == q * b + r
    ensures a / b == q && a % b == r
  {
    var q', r' := a / b, a % b;
    assert (q - q') * b == r' - r;
    if q' != q {
      MulAtLeast(q - q', b);
    }
  }

  /** A product of non-negative numbers is non-negative. */
  lemma {:induction false} MulNonneg(d: nat, b: nat)
    ensures d * b >= 0
  {
    if d > 0 {
      MulNonneg(d - 1, b);
      assert d * b == (d - 1) * b + b;
    }
  }

  /** Multiplying by a positive number keeps the order. */
  lemma MulMonotone(x: int, y: int, b: int)
    requires b > 0
    ensures x <= y ==> x * b <= y * b
  {
    if x <= y {
      MulNonneg(y - x, b);
      assert y * b == (y - x) * b + x * b;
    }
  }

  /** A non-zero multiple of `b` is at least `b` in absolute value. */
  lemma MulAtLeast(d: int, b: int)
    requires b > 0 && d != 0
    ensures d * b >= b || d * b <= -b
  {
    if d > 0 {
      MulNonneg(d - 1, b);
      assert d * b == (d - 1) * b + b;
    } else {
      MulNonneg(-d - 1, b);
      assert d * b == -((-d - 1) * b) - b;
    }
  }

  /** Every batch offset `k * b` maps back to index `k`. */
  lemma IndexOfOffset(k: nat, b: int)
    requires b > 0
    ensures BatchIndex(k * b, b) == k
  {
    DivUnique(k * b, b, k, 0);
  }

  lemma {:induction false} RangeShape(start: int, stop: int, step: int)
    requires step > 0
    ensures start >= stop ==> |Range(start, stop, step)| == 0
    ensures start < stop ==> |Range(start, stop, step)| == (stop - start + step - 1) / step
    ensures forall k :: 0 <= k < |Range(start, stop, step)| ==> Range(start, stop, step)[k] == start + k * step
    decreases stop - start
  {
    if start < stop {
      var rest := Range(start + step, stop, step);
      RangeShape(start + step, stop, step);
      var x := stop - start - 1;
      if start + step >= stop {
        DivUnique(x + step, step, 1, x);
      } else {
        DivUnique(x, step, x / step, x % step);
        DivUnique(x + step, step, x / step + 1, x % step);
      }
      forall k | 1 <= k < |Range(start, stop, step)|
        ensures Range(start, stop, step)[k] == start + k * step
      {
        assert Range(start, stop, step)[k] == rest[k - 1];
        assert start + step + (k - 1) * step == start + k * step;
      }
    }
  }

  /** The offsets are exactly `0, b, 2b, ...` below `n`, there are
      ceil(n / b) of them, and offset number `k` has batch index `k`: the
      indices are `0 .. ceil(n / b) - 1`, dense, increasing and distinct. */
  lemma {:induction false} OffsetsAreMultiples(n: nat, b: int)
    requires b > 0
    ensures |Offsets(n, b)| == BatchCount(n, b)
    ensures forall k :: 0 <= k < |Offsets(n, b)| ==> Offsets(n, b)[k] == k * b
    ensures forall k :: 0 <= k < |Offsets(n, b)| ==> BatchIndex(Offsets(n, b)[k], b) == k
  {
    RangeShape(0, n, b);
    if n == 0 {
      DivUnique(b - 1, b, 0, b - 1);
    }
    forall k | 0 <= k < |Offsets(n, b)|
      ensures BatchIndex(Offsets(n, b)[k], b) == k
    {
      IndexOfOffset(k, b);
    }
  }

  /** Offset number `k` of the loop is `k * b`, a multiple of `b` whose batch
      index is `k`. */
  lemma OffsetAt(n: nat, b: int, k: nat)
    requires b > 0 && k < |Offsets(n, b)|
    ensures Offsets(n, b)[k] == k * b
    ensures Offsets(n, b)[k] >= 0 && Offsets(n, b)[k] % b == 0
    ensures BatchIndex(Offsets(n, b)[k], b) == k
  {
    OffsetsAreMultiples(n, b);
    DivUnique(k * b, b, k, 0);
    MulNonneg(k, b);
  }

  /** The loop over `range(0, n, b)` runs ceil(n / b) times. */
  lemma OffsetsCount(n: nat, b: int)
    requires b > 0
    ensures |Offsets(n, b)| == BatchCount(n, b)
  {
    OffsetsAreMultiples(n, b);
  }

  /** The last offset is below `n` and the next multiple is not: ceil(n / b)
      batches are needed and enough. */
  lemma CountBounds(n: nat, b: int)
    requires b > 0
    ensures BatchCount(n, b) * b >= n
    ensures BatchCount(n, b) > 0 ==> (BatchCount(n, b) - 1) * b < n
  {
    var c := BatchCount(n, b);
    DivUnique(n + b - 1, b, c, (n + b - 1) % b);
    assert (c - 1) * b == c * b - b;
  }

  /** Record `j` lies in batch `k` exactly when `k == j // b`, and that batch
      is one of the run's: the batches are disjoint and cover `[0, n)`. */
  lemma BatchOfRecord(n: nat, b: int, j: int, k: nat)
    requires b > 0 && 0 <= j < n
    ensures (k * b <= j < Min(k * b + b, n)) <==> k == j / b
    ensures j / b < BatchCount(n, b)
  {
    var q, r := j / b, j % b;
    assert j == q * b + r;
    if k * b <= j < Min(k * b + b, n) {
      DivUnique(j, b, k, j - k * b);
    }
    CountBounds(n, b);
    var c := BatchCount(n, b);
    MulMonotone(c, q, b);
  }

  /** Every batch of the run is non-empty and holds at most `b` records; all
      but the last hold exactly `b`. */
  lemma BatchSizes<T>(xs: seq<T>, b: int, k: nat)
    requires b > 0 && k < BatchCount(|xs|, b)
    ensures 1 <= |Batch(xs, b, k)| <= b
    ensures k + 1 < BatchCount(|xs|, b) ==> |Batch(xs, b, k)| == b
    ensures k + 1 == BatchCount(|xs|, b) ==> |Batch(xs, b, k)| == |xs| - k * b
  {
    var n := |xs|;
    CountBounds(n, b);
    var c := BatchCount(n, b);
    MulNonneg(c - 1 - k, b);
    assert (c - 1) * b == (c - 1 - k) * b + k * b;
    assert k * b < n;
    if k + 1 < c {
      MulNonneg(c - 2 - k, b);
      assert (c - 1) * b == (c - 2 - k) * b + (k + 1) * b;
      assert (k + 1) * b == k * b + b;
    } else {
      assert c * b == k * b + b;
    }
  }

  /** The concatenation of the first `k` batches. */
  function Joined<T>(xs: seq<T>, b: int, k: nat): seq<T>
    requires b > 0
  {
    if k == 0 then [] else Joined(xs, b, k - 1) + Batch(xs, b, k - 1)
  }

  lemma {:induction false} JoinedPrefix<T>(xs: seq<T>, b: int, k: nat)
    requires b > 0
    ensures Joined(xs, b, k) == xs[..Min(k * b, |xs|)]
  {
    if k > 0 {
      JoinedPrefix(xs, b, k - 1);
      assert (k - 1) * b + b == k * b;
    }
  }

  /** Concatenating the batches in order gives back the whole dataset. */
  lemma BatchesCover<T>(xs: seq<T>, b: int)
    requires b > 0
    ensures Joined(xs, b, BatchCount(|xs|, b)) == xs
  {
    JoinedPrefix(xs, b, BatchCount(|xs|, b));
    CountBounds(|xs|, b);
  }

  /** Five records in batches of two: offsets 0, 2, 4, indices 0, 1, 2, and a
      last batch of one record. */
  lemma FiveRecordsInPairs()
    ensures Offsets(5, 2) == [0, 2, 4]
    ensures BatchCount(5, 2) == 3
    ensures BatchIndex(0, 2) == 0 && BatchIndex(2, 2) == 1 && BatchIndex(4, 2) == 2
    ensures |Batch([10, 11, 12, 13, 14], 2, 2)| == 1
  {
  }
}

=== FILE: driver.dfy ===
/** The run driver (`run_inference`): derives the dataset name and run
    metadata, installs the hooks, walks the dataset batch by batch (prepare,
    forward pass, save, clear the buffer) and removes every hook when the
    loop ends, whether it completed or an exception ended it. */
module Driver {
  import opened Types
  import Text
  import opened Batching
  import opened Hooks
  import opened Storage

  const DatasetId: string := "LongSafari/open-genome"
  const DatasetSubsplit: string := "validation"

  /** The command-line arguments of a run. */
  datatype Args = Args(dataDir: string, model: string, batchSize: int, datasetSplit: string, maxSeqLength: Option<int>)

  /** What the batch preparer returns: padded token ids and the true length
      of each record. */
  datatype Prepared = Prepared(inputIds: seq<seq<int>>, seqLengths: seq<nat>)

  /** What the model's forward pass does with a batch: the layer invocations
      it makes, in order, and whether it then raises (an error inside the
      model, or a result that does not unpack into a pair). Hooks have run
      for every invocation listed, whether or not the pass raises. */
  datatype Forward = Forward(firings: seq<Firing>, raises: bool)

  /** How the batch loop ended: normally, or by an exception that propagated
      out of it (after the hooks were removed). */
  datatype Outcome = Completed | Aborted(error: Error)

  /** Everything the batches of one run depend on. The batch preparer and the
      model's forward pass are opaque: `prepare` maps a batch's texts to its
      prepared input (or fails), `forward` maps prepared input to what the
      model does with it. */
  datatype Env = Env(
    texts: seq<string>,
    batchSize: int,
    hooked: set<string>,
    prepare: seq<string> -> Option<Prepared>,
    forward: seq<seq<int>> -> Forward,
    layout: Layout,
    run: RunMetadata,
    faults: set<Path>)

  /** `f"{DATASET_ID}-{split}-{subsplit}".replace("/", "_")` */
  function DatasetName(split: string): (r: string)
    ensures |r| == |DatasetId| + |split| + |DatasetSubsplit| + 2
    ensures forall i :: 0 <= i < |r| ==> r[i] != '/'
  {
    Text.ReplaceChar(DatasetId + "-" + split + "-" + DatasetSubsplit, '/', '_')
  }

  /** For a split name without `/` (every split the command line accepts),
      only the `/` inside the dataset id is replaced. */
  lemma DatasetNameOfPlainSplit(split: string)
    requires forall i :: 0 <= i < |split| ==> split[i] != '/'
    ensures DatasetName(split) == "LongSafari_open-genome-" + split + "-validation"
  {
    var raw := DatasetId + "-" + split + "-" + DatasetSubsplit;
    var want := "LongSafari_open-genome-" + split + "-validation";
    var r := DatasetName(split);
    assert |r| == |want|;
    forall i | 0 <= i < |r| ensures r[i] == want[i] {
      if i < 22 {
        assert raw[i] == DatasetId[i];
      } else if i == 22 {
        assert raw[i] == '-';
      } else if i < 23 + |split| {
        assert raw[i] == split[i - 23] && want[i] == split[i - 23];
      } else {
        assert raw[i] == ("-" + DatasetSubsplit)[i - 23 - |split|];
        assert want[i] == ("-validation")[i - 23 - |split|];
      }
    }
  }

  /** The run-level metadata built before the loop. */
  function RunMeta(args: Args, timestamp: string): RunMetadata
  {
    RunMetadata(args.dataDir, args.datasetSplit, DatasetSubsplit, args.batchSize,
                args.maxSeqLength, args.model, timestamp)
  }

  function RunLayout(args: Args, timestamp: string): Layout
  {
    Layout(args.dataDir, DatasetName(args.datasetSplit), args.model, timestamp)
  }

  function RunEnv(args: Args, timestamp: string, texts: seq<string>, modules: seq<Module>,
                  prepare: seq<string> -> Option<Prepared>, forward: seq<seq<int>> -> Forward,
                  faults: set<Path>): Env
  {
    Env(texts, args.batchSize, TargetNames(modules), prepare, forward,
        RunLayout(args, timestamp), RunMeta(args, timestamp), faults)
  }

  /** The forward pass of batch `k`, starting from an empty buffer; a batch
      whose preparation fails never reaches it. */
  function BatchFired(env: Env, k: nat): Fired
    requires env.batchSize > 0
  {
    match env.prepare(Batch(env.texts, env.batchSize, k))
    case None => Fired([], None)
    case Some(p) =>
      var out := env.forward(p.inputIds);
      var fired := ForwardPass([], env.hooked, out.firings);
      if fired.error.None? && out.raises then Fired(fired.buffer, Some(ModelRaised(k))) else fired
  }

  /** The buffer after batch `k`'s forward pass. */
  function Captured(env: Env, k: nat): seq<Record>
    requires env.batchSize > 0
  {
    BatchFired(env, k).buffer
  }

  /** The `seq_lengths` of batch `k`. */
  function Lengths(env: Env, k: nat): seq<nat>
    requires env.batchSize > 0
  {
    match env.prepare(Batch(env.texts, env.batchSize, k))
    case None => []
    case Some(p) => p.seqLengths
  }

  /** Everything captured by batches `0 .. c - 1`, in order. */
  function CapturedUpTo(env: Env, c: nat): seq<Record>
    requires env.batchSize > 0
  {
    if c == 0 then [] else CapturedUpTo(env, c - 1) + Captured(env, c - 1)
  }

  /** Batch `k` gets past preparation and the forward pass; only then does
      the loop body reach `save_batch_activations` and write anything. */
  predicate BatchFiredOk(env: Env, k: nat)
    requires env.batchSize > 0
  {
    env.prepare(Batch(env.texts, env.batchSize, k)).Some? && BatchFired(env, k).error.None?
  }

  /** How many batches may have written once `done` batches completed: one
      more when batch `done` aborted in its save, after its forward pass. */
  function Reached(env: Env, done: nat, aborted: bool): nat
    requires env.batchSize > 0
  {
    if aborted && BatchFiredOk(env, done) then done + 1 else done
  }

  /** Batch `k` runs to its end: preparation, forward pass and save all succeed. */
  predicate BatchSucceeds(env: Env, fs: FileSystem, k: nat)
    requires env.batchSize > 0
  {
    && BatchFiredOk(env, k)
    && SaveBatchOk(fs, env.faults, env.layout, Captured(env, k), k)
  }

  /** Batch `k` runs to its end, judged from the file system the run started
      with: when batch `k` starts, a layer has a metadata document exactly
      when it had one at the start or an earlier batch captured it. */
  predicate BatchOkFrom(env: Env, fs0: FileSystem, k: nat)
    requires env.batchSize > 0
  {
    && BatchFiredOk(env, k)
    && forall n :: n in Names(Captured(env, k)) ==>
         && PayloadPath(env.layout, n, k) !in env.faults
         && (MetaPath(env.layout, n) !in fs0 && n !in Names(CapturedUpTo(env, k)) ==>
               |FirstWith(Captured(env, k), n).output.shape| > 0 && MetaPath(env.layout, n) !in env.faults)
  }

  /** Batches `0 .. c - 1` all succeed, judged from the starting file system. */
  predicate AllOkBelow(env: Env, fs0: FileSystem, c: nat)
    requires env.batchSize > 0
  {
    c == 0 || (AllOkBelow(env, fs0, c - 1) && BatchOkFrom(env, fs0, c - 1))
  }

  lemma {:induction false} AllOkBelowEach(env: Env, fs0: FileSystem, c: nat)
    requires env.batchSize > 0 && AllOkBelow(env, fs0, c)
    ensures forall j :: 0 <= j < c ==> BatchOkFrom(env, fs0, j)
  {
    if c > 0 {
      AllOkBelowEach(env, fs0, c - 1);
    }
  }

  /** The paths the first `upTo` batches may change: the metadata document of
      every layer they captured, and batch `j`'s payload of every layer batch
      `j` captured. */
  ghost predicate RunTouched(env: Env, upTo: nat, p: Path)
    requires env.batchSize > 0
  {
    && InRunDir(env.layout, p)
    && ((p.file == MetadataFile && p.dir[3] in Names(CapturedUpTo(env, upTo)))
        || (exists j :: 0 <= j < upTo && p.file == PayloadFile(j) && p.dir[3] in Names(Captured(env, j))))
  }

  /** What the file system looks like after `done` batches completed and
      `attempted` batches started. */
  ghost predicate Progress(env: Env, fs0: FileSystem, fs: FileSystem, done: nat, attempted: nat)
    requires env.batchSize > 0
  {
    && (forall p :: !RunTouched(env, attempted, p) ==> Agree(fs0, fs, p))
    && MetadataKept(fs0, fs, env.layout)
    && (forall j :: 0 <= j < done ==> PayloadsWritten(fs, env.layout, Captured(env, j), Lengths(env, j), j))
    && MetadataWritten(fs0, fs, env.layout, env.run, CapturedUpTo(env, done))
  }

  /** What a run leaves behind however it ends: no file of `fs0` is gone, and
      every new metadata document describes its layer's earliest record among
      the captures of the first `upTo` batches. */
  ghost predicate Sound(env: Env, fs0: FileSystem, fs: FileSystem, upTo: nat)
    requires env.batchSize > 0
  {
    fs0.Keys <= fs.Keys && MetadataSound(fs0, fs, env.layout, env.run, CapturedUpTo(env, upTo))
  }

  /** After `k` completed batches a layer has a metadata document exactly
      when it had one at the start or one of those batches captured it. */
  lemma MetadataPresent(env: Env, fs0: FileSystem, fs: FileSystem, k: nat, n: string)
    requires env.batchSize > 0
    requires Progress(env, fs0, fs, k, k)
    ensures MetaPath(env.layout, n) in fs <==> MetaPath(env.layout, n) in fs0 || n in Names(CapturedUpTo(env, k))
  {
    var p := MetaPath(env.layout, n);
    forall j: nat ensures PayloadFile(j) != MetadataFile {
      PayloadNotMetadata(j);
    }
    assert p in fs && p !in fs0 ==> RunTouched(env, k, p);
  }

  /** Whether batch `k` succeeds on the file system the run has built so far
      depends only on the starting file system and the earlier captures. */
  lemma BatchOkFromState(env: Env, fs0: FileSystem, fs: FileSystem, k: nat)
    requires env.batchSize > 0
    requires Progress(env, fs0, fs, k, k)
    ensures BatchSucceeds(env, fs, k) <==> BatchOkFrom(env, fs0, k)
  {
    forall n ensures MetaPath(env.layout, n) in fs <==> MetaPath(env.layout, n) in fs0 || n in Names(CapturedUpTo(env, k)) {
      MetadataPresent(env, fs0, fs, k, n);
    }
  }

  /** A forward pass with no hooked layer appends nothing. */
  lemma NoHookNoCapture(env: Env, k: nat)
    requires env.batchSize > 0 && env.hooked == {}
    ensures Captured(env, k) == []
  {
    match env.prepare(Batch(env.texts, env.batchSize, k)) {
      case None =>
      case Some(p) =>
        UnhookedPass([], env.forward(p.inputIds).firings);
    }
  }

  /** With no hooked layer every batch captures nothing. */
  lemma {:induction false} NothingCaptured(env: Env, c: nat)
    requires env.batchSize > 0 && env.hooked == {}
    ensures CapturedUpTo(env, c) == []
    ensures forall k :: 0 <= k < c ==> Captured(env, k) == []
  {
    if c > 0 {
      NothingCaptured(env, c - 1);
      NoHookNoCapture(env, c - 1);
    }
  }

  /** A model without a matching layer is not an error: the run goes through
      its batches and leaves the file system exactly as it found it. */
  lemma NoTargetsNoFiles(env: Env, fs0: FileSystem, fs: FileSystem, done: nat, attempted: nat)
    requires env.batchSize > 0 && env.hooked == {}
    requires Progress(env, fs0, fs, done, attempted)
    ensures fs == fs0
  {
    NothingCaptured(env, attempted);
    forall p ensures (p in fs0 <==> p in fs) && (p in fs0 ==> fs0[p] == fs[p]) {
      assert !RunTouched(env, attempted, p);
    }
  }

  /** One iteration of the batch loop for the batch at `offset`. */
  method ProcessBatch(env: Env, fs: FileSystem, offset: nat) returns (fs': FileSystem, buffer: seq<Record>, err: Option<Error>)
    requires env.batchSize > 0 && offset % env.batchSize == 0
    ensures err.None? <==> BatchSucceeds(env, fs, BatchIndex(offset, env.batchSize))
    ensures err.None? ==> buffer == []
    ensures err.Some? ==> buffer == Captured(env, BatchIndex(offset, env.batchSize))
    ensures env.prepare(Slice(env.texts, offset, env.batchSize)).None? ==>
              err == Some(PrepareFailed(BatchIndex(offset, env.batchSize))) && fs' == fs
    ensures env.prepare(Slice(env.texts, offset, env.batchSize)).Some? &&
            BatchFired(env, BatchIndex(offset, env.batchSize)).error.Some? ==>
              err == BatchFired(env, BatchIndex(offset, env.batchSize)).error && fs' == fs
    ensures forall p :: !BatchTouched(env.layout, Captured(env, BatchIndex(offset, env.batchSize)), BatchIndex(offset, env.batchSize), p) ==>
              Agree(fs, fs', p)
    ensures MetadataKept(fs, fs', env.layout)
    ensures err.None? ==>
              PayloadsWritten(fs', env.layout, Captured(env, BatchIndex(offset, env.batchSize)),
                              Lengths(env, BatchIndex(offset, env.batchSize)), BatchIndex(offset, env.batchSize))
    ensures err.None? ==>
              MetadataWritten(fs, fs', env.layout, env.run, Captured(env, BatchIndex(offset, env.batchSize)))
    ensures fs.Keys <= fs'.Keys
    ensures MetadataSound(fs, fs', env.layout, env.run, Captured(env, BatchIndex(offset, env.batchSize)))
  {
    var b := env.batchSize;
    var batch := Slice(env.texts, offset, b);
    var k := offset / b;
    assert offset == k * b;
    var prepared := env.prepare(batch);
    if prepared.None? {
      return fs, [], Some(PrepareFailed(k));
    }
    var out := env.forward(prepared.value.inputIds);
    var fired := ForwardPass([], env.hooked, out.firings);
    buffer := fired.buffer;
    if fired.error.Some? {
      return fs, buffer, fired.error;
    }
    if out.raises {
      return fs, buffer, Some(ModelRaised(k));
    }
    fs', err := SaveBatch(fs, env.faults, env.layout, env.run, buffer, prepared.value.seqLengths, k);
    if err.None? {
      buffer := [];
    }
  }

  /** The loop invariant survives a batch that completes. */
  lemma BatchCompletes(env: Env, fs0: FileSystem, fs: FileSystem, fs': FileSystem, k: nat)
    requires env.batchSize > 0
    requires Progress(env, fs0, fs, k, k)
    requires forall p :: !BatchTouched(env.layout, Captured(env, k), k, p) ==> Agree(fs, fs', p)
    requires MetadataKept(fs, fs', env.layout)
    requires PayloadsWritten(fs', env.layout, Captured(env, k), Lengths(env, k), k)
    requires MetadataWritten(fs, fs', env.layout, env.run, Captured(env, k))
    ensures Progress(env, fs0, fs', k + 1, k + 1)
  {
    RunStepFrame(env, fs0, fs, fs', k);
    RunStepPayloads(env, fs, fs', k);
    RunStepMetadata(env, fs0, fs, fs', k);
    forall j | 0 <= j < k + 1
      ensures PayloadsWritten(fs', env.layout, Captured(env, j), Lengths(env, j), j)
    {
      if j < k {
        assert PayloadsWritten(fs', env.layout, Captured(env, j), Lengths(env, j), j);
      }
    }
  }

  /** The loop invariant, weakened to the batches that completed, survives a
      batch that fails. */
  lemma BatchFails(env: Env, fs0: FileSystem, fs: FileSystem, fs': FileSystem, k: nat)
    requires env.batchSize > 0
    requires Progress(env, fs0, fs, k, k)
    requires forall p :: !BatchTouched(env.layout, Captured(env, k), k, p) ==> Agree(fs, fs', p)
    requires MetadataKept(fs, fs', env.layout)
    ensures Progress(env, fs0, fs', k, k + 1)
  {
    RunStepFrame(env, fs0, fs, fs', k);
    RunStepPayloads(env, fs, fs', k);
  }

  /** The run invariant after `k` completed batches implies soundness over
      them: only their metadata and payload paths changed, and all of those
      are present. */
  lemma ProgressSound(env: Env, fs0: FileSystem, fs: FileSystem, k: nat)
    requires env.batchSize > 0
    requires Progress(env, fs0, fs, k, k)
    ensures Sound(env, fs0, fs, k)
  {
    forall j: nat ensures PayloadFile(j) != MetadataFile {
      PayloadNotMetadata(j);
    }
    forall p | p in fs0 ensures p in fs {
      if RunTouched(env, k, p) {
        assert p.dir == Dir(env.layout, p.dir[3]);
        if p.file != MetadataFile {
          var j :| 0 <= j < k && p.file == PayloadFile(j) && p.dir[3] in Names(Captured(env, j));
          assert p == PayloadPath(env.layout, p.dir[3], j);
        } else {
          assert p == MetaPath(env.layout, p.dir[3]);
        }
      }
    }
    forall n | MetaPath(env.layout, n) in fs && MetaPath(env.layout, n) !in fs0
      ensures n in Names(CapturedUpTo(env, k))
    {
      assert RunTouched(env, k, MetaPath(env.layout, n));
    }
  }

  /** Soundness survives batch `k`'s save, whether it succeeds or raises. */
  lemma SoundStep(env: Env, fs0: FileSystem, fs: FileSystem, fs': FileSystem, k: nat)
    requires env.batchSize > 0
    requires Sound(env, fs0, fs, k)
    requires MetadataWritten(fs0, fs, env.layout, env.run, CapturedUpTo(env, k))
    requires MetadataKept(fs, fs', env.layout)
    requires fs.Keys <= fs'.Keys
    requires MetadataSound(fs, fs', env.layout, env.run, Captured(env, k))
    ensures Sound(env, fs0, fs', k + 1)
  {
    var before, batch := CapturedUpTo(env, k), Captured(env, k);
    NamesAppend(before, batch);
    forall n | MetaPath(env.layout, n) in fs' && MetaPath(env.layout, n) !in fs0
      ensures n in Names(before + batch)
      ensures BuildMetadata(env.run, FirstWith(before + batch, n)).Ok?
      ensures fs'[MetaPath(env.layout, n)] == MetadataDoc(BuildMetadata(env.run, FirstWith(before + batch, n)).value)
    {
      if MetaPath(env.layout, n) in fs {
        FirstWithAppend(before, batch, n);
      } else {
        assert n !in Names(before);
        FirstWithAppend(before, batch, n);
      }
    }
  }

  lemma RunStepFrame(env: Env, fs0: FileSystem, fs: FileSystem, fs': FileSystem, k: nat)
    requires env.batchSize > 0
    requires forall p :: !RunTouched(env, k, p) ==> Agree(fs0, fs, p)
    requires MetadataKept(fs0, fs, env.layout)
    requires forall p :: !BatchTouched(env.layout, Captured(env, k), k, p) ==> Agree(fs, fs', p)
    requires MetadataKept(fs, fs', env.layout)
    ensures forall p :: !RunTouched(env, k + 1, p) ==> Agree(fs0, fs', p)
    ensures MetadataKept(fs0, fs', env.layout)
  {
    NamesAppend(CapturedUpTo(env, k), Captured(env, k));
    forall p | !RunTouched(env, k + 1, p) ensures Agree(fs0, fs', p) {
      RunTouchedGrows(env, k, p);
    }
  }

  /** What batch `k` may touch, and what earlier batches touched, is touched
      by the first `k + 1` batches. */
  lemma RunTouchedGrows(env: Env, k: nat, p: Path)
    requires env.batchSize > 0
    ensures BatchTouched(env.layout, Captured(env, k), k, p) ==> RunTouched(env, k + 1, p)
    ensures RunTouched(env, k, p) ==> RunTouched(env, k + 1, p)
  {
    NamesAppend(CapturedUpTo(env, k), Captured(env, k));
    if BatchTouched(env.layout, Captured(env, k), k, p) && p.file == PayloadFile(k) {
      assert 0 <= k < k + 1 && p.file == PayloadFile(k) && p.dir[3] in Names(Captured(env, k));
    }
    if RunTouched(env, k, p) && p.file != MetadataFile {
      var j :| 0 <= j < k && p.file == PayloadFile(j) && p.dir[3] in Names(Captured(env, j));
      assert 0 <= j < k + 1;
    }
  }

  /** A run invariant over the first `attempted` batches also holds over one
      more: `Reached` only ever narrows the set of paths a run may change. */
  lemma ProgressWidens(env: Env, fs0: FileSystem, fs: FileSystem, done: nat, attempted: nat)
    requires env.batchSize > 0
    requires Progress(env, fs0, fs, done, attempted)
    ensures Progress(env, fs0, fs, done, attempted + 1)
  {
    forall p | !RunTouched(env, attempted + 1, p)
      ensures Agree(fs0, fs, p)
    {
      RunTouchedGrows(env, attempted, p);
    }
  }

  lemma RunStepPayloads(env: Env, fs: FileSystem, fs': FileSystem, k: nat)
    requires env.batchSize > 0
    requires forall j :: 0 <= j < k ==> PayloadsWritten(fs, env.layout, Captured(env, j), Lengths(env, j), j)
    requires forall p :: !BatchTouched(env.layout, Captured(env, k), k, p) ==> Agree(fs, fs', p)
    ensures forall j :: 0 <= j < k ==> PayloadsWritten(fs', env.layout, Captured(env, j), Lengths(env, j), j)
  {
    forall j, n | 0 <= j < k && n in Names(Captured(env, j))
      ensures PayloadPath(env.layout, n, j) in fs'
      ensures fs'[PayloadPath(env.layout, n, j)] == PayloadDoc(LastWith(Captured(env, j), n).output, Lengths(env, j))
    {
      PayloadFileInjective(j, k);
      PayloadNotMetadata(j);
      assert !BatchTouched(env.layout, Captured(env, k), k, PayloadPath(env.layout, n, j));
      assert PayloadsWritten(fs, env.layout, Captured(env, j), Lengths(env, j), j);
    }
  }

  lemma RunStepMetadata(env: Env, fs0: FileSystem, fs: FileSystem, fs': FileSystem, k: nat)
    requires env.batchSize > 0
    requires forall p :: !RunTouched(env, k, p) ==> Agree(fs0, fs, p)
    requires MetadataWritten(fs0, fs, env.layout, env.run, CapturedUpTo(env, k))
    requires MetadataKept(fs, fs', env.layout)
    requires MetadataWritten(fs, fs', env.layout, env.run, Captured(env, k))
    ensures MetadataWritten(fs0, fs', env.layout, env.run, CapturedUpTo(env, k + 1))
  {
    var before, batch := CapturedUpTo(env, k), Captured(env, k);
    NamesAppend(before, batch);
    forall n | n in Names(CapturedUpTo(env, k + 1))
      ensures MetaPath(env.layout, n) in fs'
      ensures MetaPath(env.layout, n) in fs0 ==> fs'[MetaPath(env.layout, n)] == fs0[MetaPath(env.layout, n)]
      ensures MetaPath(env.layout, n) !in fs0 ==>
                BuildMetadata(env.run, FirstWith(CapturedUpTo(env, k + 1), n)).Ok? &&
                fs'[MetaPath(env.layout, n)] == MetadataDoc(BuildMetadata(env.run, FirstWith(CapturedUpTo(env, k + 1), n)).value)
    {
      FirstWithAppend(before, batch, n);
      if n !in Names(before) {
        assert !RunTouched(env, k, MetaPath(env.layout, n)) by {
          forall j | 0 <= j < k ensures MetadataFile != PayloadFile(j) {
            PayloadNotMetadata(j);
          }
        }
      }
    }
  }

  /** The batch loop `for sample_idx in range(0, len(dataset), batch_size)`
      for a positive batch size; it stops at the first batch that raises. */
  method RunBatches(env: Env, fs0: FileSystem) returns (fs: FileSystem, buffer: seq<Record>, completed: nat, outcome: Outcome)
    requires env.batchSize > 0
    ensures outcome.Completed? ==> buffer == [] && completed == BatchCount(|env.texts|, env.batchSize)
    ensures outcome.Aborted? ==> completed < BatchCount(|env.texts|, env.batchSize) && buffer == Captured(env, completed)
    ensures forall j :: 0 <= j < completed ==> BatchOkFrom(env, fs0, j)
    ensures outcome.Aborted? ==> !BatchOkFrom(env, fs0, completed)
    ensures Progress(env, fs0, fs, completed, Reached(env, completed, outcome.Aborted?))
    ensures Sound(env, fs0, fs, Reached(env, completed, outcome.Aborted?))
  {
    var offsets := Offsets(|env.texts|, env.batchSize);
    OffsetsCount(|env.texts|, env.batchSize);
    fs, buffer, completed, outcome := fs0, [], 0, Completed;
    while completed < |offsets|
      invariant completed <= |offsets|
      invariant buffer == []
      invariant AllOkBelow(env, fs0, completed)
      invariant Progress(env, fs0, fs, completed, completed)
    {
      var fs', buf', err := Advance(env, fs0, fs, completed);
      if err.Some? {
        fs, buffer, outcome := fs', buf', Aborted(err.value);
        AllOkBelowEach(env, fs0, completed);
        return;
      }
      fs, buffer, completed := fs', buf', completed + 1;
    }
    AllOkBelowEach(env, fs0, completed);
    ProgressSound(env, fs0, fs, completed);
  }

  /** One iteration of the batch loop, together with what it does to the
      loop invariant. */
  method Advance(env: Env, fs0: FileSystem, fs: FileSystem, k: nat)
    returns (fs': FileSystem, buffer: seq<Record>, err: Option<Error>)
    requires env.batchSize > 0 && k < |Offsets(|env.texts|, env.batchSize)|
    requires Progress(env, fs0, fs, k, k)
    ensures err.None? <==> BatchOkFrom(env, fs0, k)
    ensures err.None? ==> buffer == [] && Progress(env, fs0, fs', k + 1, k + 1)
    ensures err.Some? ==> buffer == Captured(env, k) && Progress(env, fs0, fs', k, Reached(env, k, true))
    ensures err.Some? && !BatchFiredOk(env, k) ==> fs' == fs
    ensures err.Some? ==> Sound(env, fs0, fs', Reached(env, k, true))
  {
    BatchOkFromState(env, fs0, fs, k);
    OffsetAt(|env.texts|, env.batchSize, k);
    var offset := Offsets(|env.texts|, env.batchSize)[k];
    fs', buffer, err := ProcessBatch(env, fs, offset);
    if err.Some? {
      BatchFails(env, fs0, fs, fs', k);
      ProgressSound(env, fs0, fs, k);
      if BatchFiredOk(env, k) {
        SoundStep(env, fs0, fs, fs', k);
      }
    } else {
      BatchCompletes(env, fs0, fs, fs', k);
    }
  }

  /** `run_inference`: registers the hooks, runs the batch loop over
      `range(0, len(dataset), batch_size)`, and removes the hooks whichever
      way the loop ends. */
  method RunInference(args: Args, timestamp: string, texts: seq<string>, modules: seq<Module>,
                      registry: set<Handle>, nextId: nat,
                      prepare: seq<string> -> Option<Prepared>, forward: seq<seq<int>> -> Forward,
                      fs0: FileSystem, faults: set<Path>)
    returns (fs: FileSystem, buffer: seq<Record>, hooks: seq<Handle>, live: set<Handle>, completed: nat, outcome: Outcome)
    requires forall h :: h in registry ==> h.id < nextId
    ensures HookedLayers(hooks) == TargetNames(modules)
    ensures |hooks| == |TargetOrder(modules)|
    ensures forall i :: 0 <= i < |hooks| ==> hooks[i].layer == TargetOrder(modules)[i] && hooks[i].id == nextId + i
    ensures HandleSet(hooks) !! registry
    ensures live == registry
    ensures outcome.Completed? ==> buffer == []
    ensures args.batchSize == 0 ==> outcome == Aborted(ZeroBatchSize) && fs == fs0 && completed == 0
    ensures args.batchSize < 0 ==> outcome == Completed && fs == fs0 && completed == 0
    ensures args.batchSize > 0 && outcome.Completed? ==> completed == BatchCount(|texts|, args.batchSize)
    ensures args.batchSize > 0 && outcome.Aborted? ==>
              completed < BatchCount(|texts|, args.batchSize) &&
              buffer == Captured(RunEnv(args, timestamp, texts, modules, prepare, forward, faults), completed)
    ensures args.batchSize > 0 ==>
              forall j :: 0 <= j < completed ==>
                BatchOkFrom(RunEnv(args, timestamp, texts, modules, prepare, forward, faults), fs0, j)
    ensures args.batchSize > 0 && outcome.Aborted? ==>
              !BatchOkFrom(RunEnv(args, timestamp, texts, modules, prepare, forward, faults), fs0, completed)
    ensures args.batchSize > 0 ==>
              Progress(RunEnv(args, timestamp, texts, modules, prepare, forward, faults), fs0, fs, completed,
                       Reached(RunEnv(args, timestamp, texts, modules, prepare, forward, faults), completed, outcome.Aborted?))
    ensures args.batchSize > 0 ==>
              Sound(RunEnv(args, timestamp, texts, modules, prepare, forward, faults), fs0, fs,
                    Reached(RunEnv(args, timestamp, texts, modules, prepare, forward, faults), completed, outcome.Aborted?))
  {
    hooks := RegisterHooks(modules, nextId);
    live := registry + HandleSet(hooks);
    var env := RunEnv(args, timestamp, texts, modules, prepare, forward, faults);
    assert env.hooked == HookedLayers(hooks);
    fs, buffer, completed, outcome := fs0, [], 0, Completed;
    if args.batchSize == 0 {
      outcome := Aborted(ZeroBatchSize);
    } else if args.batchSize > 0 {
      fs, buffer, completed, outcome := RunBatches(env, fs0);
    }
    // the `finally` block
    live := RemoveHooks(live, hooks);
    forall h | h in HandleSet(hooks) ensures h !in registry {
      var j :| 0 <= j < |hooks| && hooks[j] == h;
    }
  }
}

=== FILE: hooks.dfy ===
/** The hook manager and the activation buffer: which layers get a forward
    hook, what a hook appends when its layer fires, and how a forward pass
    grows the shared buffer. */
module Hooks {
  import opened Types
  import Text

  /** A named layer of the model, with the printed form of its runtime type
      (`str(type(module))`). */
  datatype Module = Module(name: string, typeName: string)

  /** A removable hook handle: an id unique among live hooks, and the name
      of the layer it is attached to. */
  datatype Handle = Handle(id: nat, layer: string)

  /** The outcome of appending to the buffer: the buffer as it stands, and the
      exception a hook raised, if any. */
  datatype Fired = Fired(buffer: seq<Record>, error: Option<Error>)

  const TargetKind: string := "AttentionBlock"

  /** A layer is hooked when its type's printed form mentions the target kind. */
  predicate IsTarget(m: Module)
  {
    Text.Contains(m.typeName, TargetKind)
  }

  /** The names of the layers a run hooks. */
  function TargetNames(modules: seq<Module>): set<string>
  {
    set m | m in modules && IsTarget(m) :: m.name
  }

  /** The names of the layers a run hooks, in the order the traversal
      visits them. */
  function TargetOrder(modules: seq<Module>): seq<string>
  {
    if |modules| == 0 then []
    else TargetOrder(modules[..|modules| - 1]) + (if IsTarget(modules[|modules| - 1]) then [modules[|modules| - 1].name] else [])
  }

  function HookedLayers(hooks: seq<Handle>): set<string>
  {
    set h | h in hooks :: h.layer
  }

  function HandleSet(hooks: seq<Handle>): set<Handle>
  {
    set h | h in hooks
  }

  lemma TargetNamesSnoc(modules: seq<Module>, m: Module)
    ensures TargetNames(modules + [m]) == TargetNames(modules) + (if IsTarget(m) then {m.name} else {})
  {
    var all := modules + [m];
    forall x | x in TargetNames(all)
      ensures x in TargetNames(modules) + (if IsTarget(m) then {m.name} else {})
    {
      var m' :| m' in all && IsTarget(m') && m'.name == x;
      if m' != m {
        assert m' in modules;
      }
    }
    forall x | x in TargetNames(modules)
      ensures x in TargetNames(all)
    {
      var m' :| m' in modules && IsTarget(m') && m'.name == x;
      assert m' in all;
    }
    if IsTarget(m) {
      assert m in all;
    }
  }

  lemma HookedLayersSnoc(hooks: seq<Handle>, h: Handle)
    ensures HookedLayers(hooks + [h]) == HookedLayers(hooks) + {h.layer}
  {
    assert h in hooks + [h];
    forall x | x in hooks ensures x in hooks + [h] {
    }
  }

  /** Extending the scanned prefix of the module list by one module. */
  lemma TargetsStep(modules: seq<Module>, i: nat)
    requires i < |modules|
    ensures TargetOrder(modules[..i + 1]) == TargetOrder(modules[..i]) + (if IsTarget(modules[i]) then [modules[i].name] else [])
    ensures TargetNames(modules[..i + 1]) == TargetNames(modules[..i]) + (if IsTarget(modules[i]) then {modules[i].name} else {})
  {
    assert modules[..i + 1] == modules[..i] + [modules[i]];
    assert modules[..i + 1][..i] == modules[..i];
    TargetNamesSnoc(modules[..i], modules[i]);
  }

  /** One hook per layer whose type mentions the target kind, in traversal
      order, with consecutive ids from `nextId`; no matching layer gives no
      hooks and no error. */
  method RegisterHooks(modules: seq<Module>, nextId: nat) returns (hooks: seq<Handle>)
    ensures |hooks| == |TargetOrder(modules)|
    ensures forall i :: 0 <= i < |hooks| ==> hooks[i].layer == TargetOrder(modules)[i]
    ensures HookedLayers(hooks) == TargetNames(modules)
    ensures forall i :: 0 <= i < |hooks| ==> hooks[i].id == nextId + i
  {
    hooks := [];
    var i := 0;
    while i < |modules|
      invariant 0 <= i <= |modules|
      invariant |hooks| == |TargetOrder(modules[..i])|
      invariant forall j :: 0 <= j < |hooks| ==> hooks[j].layer == TargetOrder(modules[..i])[j]
      invariant HookedLayers(hooks) == TargetNames(modules[..i])
      invariant forall j :: 0 <= j < |hooks| ==> hooks[j].id == nextId + j
    {
      var m := modules[i];
      TargetsStep(modules, i);
      if IsTarget(m) {
        var h := Handle(nextId + |hooks|, m.name);
        HookedLayersSnoc(hooks, h);
        hooks := hooks + [h];
      }
      i := i + 1;
    }
    assert modules[..i] == modules;
  }

  /** Removes every handle of `hooks` from the live set, one at a time. */
  method RemoveHooks(live: set<Handle>, hooks: seq<Handle>) returns (live': set<Handle>)
    ensures live' == live - HandleSet(hooks)
  {
    live' := live;
    var i := 0;
    while i < |hooks|
      invariant 0 <= i <= |hooks|
      invariant live' == live - HandleSet(hooks[..i])
    {
      assert HandleSet(hooks[..i + 1]) == HandleSet(hooks[..i]) + {hooks[i]} by {
        assert hooks[..i + 1] == hooks[..i] + [hooks[i]];
      }
      live' := live' - {hooks[i]};
      i := i + 1;
    }
    assert hooks[..i] == hooks;
  }

  /** The record a hook makes of one firing: the first element of a tuple
      output, otherwise the output itself, which must then be a tensor. */
  function Capture(layer: string, out: Output): (r: Result<Record>)
    ensures r.Ok? ==> r.value.name == layer
    ensures out.TensorOut? ==> r == Ok(Record(layer, out.tensor))
    ensures out.TupleOut? && |out.items| > 0 && out.items[0].TensorOut? ==> r == Ok(Record(layer, out.items[0].tensor))
    ensures out.TupleOut? && |out.items| == 0 ==> r == Err(EmptyTupleOutput(layer))
    ensures r.Ok? <==> out.TensorOut? || (out.TupleOut? && |out.items| > 0 && out.items[0].TensorOut?)
  {
    var primary: Result<Output> :=
      if out.TupleOut? then
        (if |out.items| == 0 then Err(EmptyTupleOutput(layer)) else Ok(out.items[0]))
      else Ok(out);
    match primary
    case Err(e) => Err(e)
    case Ok(TensorOut(t)) => Ok(Record(layer, t))
    case Ok(_) => Err(NotATensor(layer))
  }

  /** One layer invocation: a hooked layer appends exactly one record (or
      raises), any other layer leaves the buffer alone. */
  function Fire(buffer: seq<Record>, hooked: set<string>, f: Firing): (r: Fired)
    ensures f.layer !in hooked ==> r == Fired(buffer, None)
    ensures f.layer in hooked && Capture(f.layer, f.output).Ok? ==>
              r == Fired(buffer + [Capture(f.layer, f.output).value], None)
    ensures f.layer in hooked && Capture(f.layer, f.output).Err? ==>
              r == Fired(buffer, Some(Capture(f.layer, f.output).error))
  {
    if f.layer !in hooked then Fired(buffer, None)
    else match Capture(f.layer, f.output)
      case Ok(rec) => Fired(buffer + [rec], None)
      case Err(e) => Fired(buffer, Some(e))
  }

  /** The records the hooks append over a sequence of layer invocations when
      none of them raises: one per hooked invocation, in order. */
  function Expected(hooked: set<string>, firings: seq<Firing>): seq<Record>
  {
    if |firings| == 0 then []
    else
      var f := firings[0];
      (if f.layer in hooked && Capture(f.layer, f.output).Ok? then [Capture(f.layer, f.output).value] else [])
      + Expected(hooked, firings[1..])
  }

  /** A hook raises on this firing. */
  predicate Faulty(hooked: set<string>, f: Firing)
  {
    f.layer in hooked && Capture(f.layer, f.output).Err?
  }

  /** A forward pass: the layers fire in order; the first hook that raises
      aborts the pass, leaving what was appended before it. */
  function ForwardPass(buffer: seq<Record>, hooked: set<string>, firings: seq<Firing>): (r: Fired)
    ensures |buffer| <= |r.buffer| && r.buffer[..|buffer|] == buffer
    ensures forall i :: |buffer| <= i < |r.buffer| ==> r.buffer[i].name in hooked
    ensures |r.buffer| - |buffer| <= |firings|
    ensures r.error.None? <==> forall i :: 0 <= i < |firings| ==> !Faulty(hooked, firings[i])
    ensures r.error.None? ==> r.buffer == buffer + Expected(hooked, firings)
    decreases |firings|
  {
    if |firings| == 0 then Fired(buffer, None)
    else
      var step := Fire(buffer, hooked, firings[0]);
      if step.error.Some? then step
      else
        var rest := ForwardPass(step.buffer, hooked, firings[1..]);
        assert forall i :: 1 <= i < |firings| ==> firings[i] == firings[1..][i - 1];
        rest
  }

  /** The position of the first invocation whose hook raises, or the number
      of invocations when none does. */
  function FirstFault(hooked: set<string>, firings: seq<Firing>): (r: nat)
    ensures r <= |firings|
    ensures r < |firings| ==> Faulty(hooked, firings[r])
    ensures forall j :: 0 <= j < r ==> !Faulty(hooked, firings[j])
  {
    if |firings| == 0 || Faulty(hooked, firings[0]) then 0
    else
      var r := 1 + FirstFault(hooked, firings[1..]);
      assert forall j :: 1 <= j < r ==> firings[j] == firings[1..][j - 1];
      r
  }

  lemma AppendAssoc<T>(a: seq<T>, b: seq<T>, c: seq<T>)
    ensures (a + b) + c == a + (b + c)
  {
  }

  /** A pass that raises stops at the first invocation whose hook raises: it
      keeps what the earlier invocations appended and raises that hook's
      exception. */
  lemma {:induction false} PassRaises(buffer: seq<Record>, hooked: set<string>, firings: seq<Firing>)
    requires ForwardPass(buffer, hooked, firings).error.Some?
    ensures FirstFault(hooked, firings) < |firings|
    ensures ForwardPass(buffer, hooked, firings).buffer == buffer + Expected(hooked, firings[..FirstFault(hooked, firings)])
    ensures ForwardPass(buffer, hooked, firings).error ==
              Some(Capture(firings[FirstFault(hooked, firings)].layer, firings[FirstFault(hooked, firings)].output).error)
    decreases |firings|
  {
    var f, rest := firings[0], firings[1..];
    var step := Fire(buffer, hooked, f);
    if step.error.Some? {
      assert firings[..0] == [];
    } else {
      var i := FirstFault(hooked, rest);
      assert ForwardPass(buffer, hooked, firings) == ForwardPass(step.buffer, hooked, rest);
      PassRaises(step.buffer, hooked, rest);
      assert FirstFault(hooked, firings) == i + 1;
      var head := firings[..i + 1];
      var e0 := if f.layer in hooked && Capture(f.layer, f.output).Ok? then [Capture(f.layer, f.output).value] else [];
      assert step.buffer == buffer + e0;
      assert head[0] == f && head[1..] == rest[..i];
      assert Expected(hooked, head) == e0 + Expected(hooked, rest[..i]);
      AppendAssoc(buffer, e0, Expected(hooked, rest[..i]));
      assert firings[i + 1] == rest[i];
    }
  }

  /** With no layer hooked, a forward pass leaves the buffer as it was and
      never raises. */
  lemma {:induction false} UnhookedPass(buffer: seq<Record>, firings: seq<Firing>)
    ensures ForwardPass(buffer, {}, firings) == Fired(buffer, None)
    decreases |firings|
  {
    if |firings| > 0 {
      UnhookedPass(buffer, firings[1..]);
    }
  }

  /** How many of the invocations hit a hooked layer. */
  function CountHooked(hooked: set<string>, firings: seq<Firing>): nat
  {
    if |firings| == 0 then 0
    else (if firings[0].layer in hooked then 1 else 0) + CountHooked(hooked, firings[1..])
  }

  /** When no hook raises, a forward pass appends exactly one record per
      invocation of a hooked layer. */
  lemma {:induction false} ExpectedCount(hooked: set<string>, firings: seq<Firing>)
    requires forall i :: 0 <= i < |firings| ==> !Faulty(hooked, firings[i])
    ensures |Expected(hooked, firings)| == CountHooked(hooked, firings)
  {
    if |firings| > 0 {
      assert !Faulty(hooked, firings[0]);
      assert forall i :: 0 <= i < |firings| - 1 ==> firings[1..][i] == firings[i + 1];
      ExpectedCount(hooked, firings[1..]);
    }
  }

  /** The layer names present in a buffer. */
  function Names(buffer: seq<Record>): set<string>
  {
    set r | r in buffer :: r.name
  }

  /** The earliest record of layer `n`. */
  function FirstWith(buffer: seq<Record>, n: string): (r: Record)
    requires n in Names(buffer)
    ensures exists i :: 0 <= i < |buffer| && buffer[i] == r && forall j :: 0 <= j < i ==> buffer[j].name != n
    ensures r.name == n
  {
    var init := buffer[..|buffer| - 1];
    if n in Names(init) then FirstWith(init, n) else buffer[|buffer| - 1]
  }

  /** The latest record of layer `n`. */
  function LastWith(buffer: seq<Record>, n: string): (r: Record)
    requires n in Names(buffer)
    ensures exists i :: 0 <= i < |buffer| && buffer[i] == r && forall j :: i < j < |buffer| ==> buffer[j].name != n
    ensures r.name == n
  {
    var init := buffer[..|buffer| - 1];
    if buffer[|buffer| - 1].name == n then buffer[|buffer| - 1] else LastWith(init, n)
  }

  lemma {:induction false} NamesAppend(a: seq<Record>, b: seq<Record>)
    ensures Names(a + b) == Names(a) + Names(b)
  {
    forall n | n in Names(a + b) ensures n in Names(a) + Names(b) {
      var i :| 0 <= i < |a + b| && (a + b)[i].name == n;
      if i >= |a| {
        assert b[i - |a|].name == n;
      }
    }
    forall n | n in Names(a) ensures n in Names(a + b) {
      var i :| 0 <= i < |a| && a[i].name == n;
      assert (a + b)[i].name == n;
    }
    forall n | n in Names(b) ensures n in Names(a + b) {
      var i :| 0 <= i < |b| && b[i].name == n;
      assert (a + b)[|a| + i].name == n;
    }
  }

  /** The earliest record of a layer in `a + b` is in `a` when `a` has one. */
  lemma {:induction false} FirstWithAppend(a: seq<Record>, b: seq<Record>, n: string)
    requires n in Names(a + b)
    ensures n in Names(a) ==> FirstWith(a + b, n) == FirstWith(a, n)
    ensures n !in Names(a) ==> n in Names(b) && FirstWith(a + b, n) == FirstWith(b, n)
    decreases |b|
  {
    NamesAppend(a, b);
    if |b| > 0 {
      var b' := b[..|b| - 1];
      assert (a + b)[..|a + b| - 1] == a + b';
      NamesAppend(a, b');
      if n in Names(a + b') {
        FirstWithAppend(a, b', n);
      }
    } else {
      assert a + b == a;
    }
  }
}

=== FILE: storage.dfy ===
/** The persistence writer over an abstract file system: where a layer's
    captures go, the metadata document written once per destination, and
    the payload file written for every batch. */
module Storage {
  import opened Types
  import Text
  import opened Hooks

  /** The run-level metadata fixed before the batch loop. */
  datatype RunMetadata = RunMetadata(
    dataDir: string,
    datasetSplit: string,
    datasetSubsplit: string,
    batchSize: int,
    maxSeqLength: Option<int>,
    baseModel: string,
    timestamp: string)

  /** The document in `metadata.json`: the run's fields plus the layer's name
      and the last-axis size of its captured tensor. */
  datatype Metadata = Metadata(run: RunMetadata, moduleName: string, embedDim: nat)

  datatype Content =
    | MetadataDoc(meta: Metadata)
    | PayloadDoc(tensor: Tensor, seqLengths: seq<nat>)

  type FileSystem = map<Path, Content>

  /** The result of a sequence of writes: the file system as left behind
      (earlier writes persist when a later one fails) and the error, if any. */
  datatype Effect = Effect(fs: FileSystem, error: Option<Error>)

  /** The parts of a destination fixed for the whole run. */
  datatype Layout = Layout(dataDir: string, datasetName: string, model: string, timestamp: string)

  const MetadataFile: string := "metadata.json"

  /** `activations_{batch_idx}.pt` */
  function PayloadFile(batchIndex: nat): string
  {
    "activations_" + Text.NatToString(batchIndex) + ".pt"
  }

  /** `data_dir / dataset_name / model / layer / timestamp` */
  function Dir(l: Layout, layer: string): seq<string>
  {
    [l.dataDir, l.datasetName, l.model, layer, l.timestamp]
  }

  function MetaPath(l: Layout, layer: string): Path
  {
    Path(Dir(l, layer), MetadataFile)
  }

  function PayloadPath(l: Layout, layer: string, batchIndex: nat): Path
  {
    Path(Dir(l, layer), PayloadFile(batchIndex))
  }

  /** `p` lies in one of the run's destinations. */
  predicate InRunDir(l: Layout, p: Path)
  {
    |p.dir| == 5 && p.dir == Dir(l, p.dir[3])
  }

  /** `p` is present in both or neither, with the same content. */
  predicate Agree(fs: FileSystem, fs': FileSystem, p: Path)
  {
    (p in fs <==> p in fs') && (p in fs ==> fs[p] == fs'[p])
  }

  /** No payload file is named like the metadata document. */
  lemma PayloadNotMetadata(k: nat)
    ensures PayloadFile(k) != MetadataFile
  {
    assert PayloadFile(k)[0] == 'a';
  }

  /** Payload names of different batch indices never collide. */
  lemma PayloadFileInjective(a: nat, b: nat)
    ensures PayloadFile(a) == PayloadFile(b) <==> a == b
  {
    var sa, sb := Text.NatToString(a), Text.NatToString(b);
    if PayloadFile(a) == PayloadFile(b) {
      assert |sa| == |sb|;
      assert PayloadFile(a)[12..12 + |sa|] == sa;
      assert PayloadFile(b)[12..12 + |sb|] == sb;
      Text.NatToStringInjective(a, b);
    }
  }

  /** The metadata document for a record; `shape[-1]` of a 0-dimensional
      tensor raises. */
  function BuildMetadata(run: RunMetadata, rec: Record): (r: Result<Metadata>)
    ensures r.Ok? <==> |rec.output.shape| > 0
    ensures r.Ok? ==> r.value.run == run && r.value.moduleName == rec.name
    ensures r.Ok? ==> r.value.embedDim == rec.output.shape[|rec.output.shape| - 1]
  {
    if |rec.output.shape| == 0 then Err(ScalarTensor(rec.name))
    else Ok(Metadata(run, rec.name, rec.output.shape[|rec.output.shape| - 1]))
  }

  /** Writes one file; a path in `faults` cannot be written. */
  function Write(fs: FileSystem, faults: set<Path>, p: Path, c: Content): (e: Effect)
    ensures e.error.None? <==> p !in faults
    ensures e.error.None? ==> e.fs == fs[p := c]
    ensures e.error.Some? ==> e.fs == fs && e.error == Some(WriteFailed(p))
  {
    if p in faults then Effect(fs, Some(WriteFailed(p))) else Effect(fs[p := c], None)
  }

  /** The conditions under which saving `rec` succeeds. */
  predicate SaveRecordOk(fs: FileSystem, faults: set<Path>, l: Layout, rec: Record, k: nat)
  {
    && (MetaPath(l, rec.name) !in fs ==> |rec.output.shape| > 0 && MetaPath(l, rec.name) !in faults)
    && PayloadPath(l, rec.name, k) !in faults
  }

  /** Saves one buffer record for batch `k`: the metadata document when the
      destination has none yet, then the payload `(tensor, seq_lengths)`. */
  function SaveRecord(fs: FileSystem, faults: set<Path>, l: Layout, run: RunMetadata,
                      rec: Record, seqLengths: seq<nat>, k: nat): (e: Effect)
    ensures forall p :: p != MetaPath(l, rec.name) && p != PayloadPath(l, rec.name, k) ==> Agree(fs, e.fs, p)
    ensures MetaPath(l, rec.name) in fs ==>
              MetaPath(l, rec.name) in e.fs && e.fs[MetaPath(l, rec.name)] == fs[MetaPath(l, rec.name)]
    ensures e.error.None? <==> SaveRecordOk(fs, faults, l, rec, k)
    ensures e.error.None? ==>
              PayloadPath(l, rec.name, k) in e.fs && e.fs[PayloadPath(l, rec.name, k)] == PayloadDoc(rec.output, seqLengths)
    ensures e.error.None? && MetaPath(l, rec.name) !in fs ==>
              MetaPath(l, rec.name) in e.fs && e.fs[MetaPath(l, rec.name)] == MetadataDoc(BuildMetadata(run, rec).value)
    ensures fs.Keys <= e.fs.Keys
    ensures MetadataSound(fs, e.fs, l, run, [rec])
  {
    var dir := Dir(l, rec.name);
    var meta :=
      if Path(dir, MetadataFile) in fs then Effect(fs, None)
      else match BuildMetadata(run, rec)
        case Err(err) => Effect(fs, Some(err))
        case Ok(doc) => Write(fs, faults, Path(dir, MetadataFile), MetadataDoc(doc));
    if meta.error.Some? then meta
    else
      PayloadNotMetadata(k);
      Write(meta.fs, faults, Path(dir, PayloadFile(k)), PayloadDoc(rec.output, seqLengths))
  }

  /** The paths that saving `buffer` for batch `k` may change. */
  predicate BatchTouched(l: Layout, buffer: seq<Record>, k: nat, p: Path)
  {
    InRunDir(l, p) && p.dir[3] in Names(buffer) && (p.file == MetadataFile || p.file == PayloadFile(k))
  }

  /** The conditions under which saving a whole buffer succeeds: no payload
      path faults, and every layer without a metadata document has a first
      record with a non-scalar tensor and a writable metadata path. */
  predicate SaveBatchOk(fs: FileSystem, faults: set<Path>, l: Layout, buffer: seq<Record>, k: nat)
  {
    forall n :: n in Names(buffer) ==>
      && PayloadPath(l, n, k) !in faults
      && (MetaPath(l, n) !in fs ==> |FirstWith(buffer, n).output.shape| > 0 && MetaPath(l, n) !in faults)
  }

  /** The payload of batch `k` for every layer in the buffer holds that
      layer's latest record. */
  predicate PayloadsWritten(fs: FileSystem, l: Layout, buffer: seq<Record>, seqLengths: seq<nat>, k: nat)
  {
    forall n :: n in Names(buffer) ==>
      PayloadPath(l, n, k) in fs && fs[PayloadPath(l, n, k)] == PayloadDoc(LastWith(buffer, n).output, seqLengths)
  }

  /** Every layer in `captured` has a metadata document; one that existed in
      `fs0` is unchanged, and a new one describes the layer's earliest record. */
  predicate MetadataWritten(fs0: FileSystem, fs: FileSystem, l: Layout, run: RunMetadata, captured: seq<Record>)
  {
    forall n :: n in Names(captured) ==>
      && MetaPath(l, n) in fs
      && (MetaPath(l, n) in fs0 ==> fs[MetaPath(l, n)] == fs0[MetaPath(l, n)])
      && (MetaPath(l, n) !in fs0 ==>
            BuildMetadata(run, FirstWith(captured, n)).Ok? &&
            fs[MetaPath(l, n)] == MetadataDoc(BuildMetadata(run, FirstWith(captured, n)).value))
  }

  /** A metadata document, once present, is never rewritten. */
  ghost predicate MetadataKept(fs0: FileSystem, fs: FileSystem, l: Layout)
  {
    forall n :: MetaPath(l, n) in fs0 ==> MetaPath(l, n) in fs && fs[MetaPath(l, n)] == fs0[MetaPath(l, n)]
  }

  /** Every metadata document that `fs` has and `fs0` lacks belongs to a
      layer of `captured` and describes that layer's earliest record. */
  ghost predicate MetadataSound(fs0: FileSystem, fs: FileSystem, l: Layout, run: RunMetadata, captured: seq<Record>)
  {
    forall n :: MetaPath(l, n) in fs && MetaPath(l, n) !in fs0 ==>
      && n in Names(captured)
      && BuildMetadata(run, FirstWith(captured, n)).Ok?
      && fs[MetaPath(l, n)] == MetadataDoc(BuildMetadata(run, FirstWith(captured, n)).value)
  }

  /** Only the paths of `BatchTouched` differ from `fs0`. */
  ghost predicate Framed(fs0: FileSystem, fs: FileSystem, l: Layout, buffer: seq<Record>, k: nat)
  {
    forall p :: !BatchTouched(l, buffer, k, p) ==> Agree(fs0, fs, p)
  }

  /** `save_batch_activations`: saves the buffer's records in order and stops
      at the first exception. */
  method SaveBatch(fs0: FileSystem, faults: set<Path>, l: Layout, run: RunMetadata,
                   buffer: seq<Record>, seqLengths: seq<nat>, k: nat)
    returns (fs: FileSystem, err: Option<Error>)
    ensures forall p :: !BatchTouched(l, buffer, k, p) ==> Agree(fs0, fs, p)
    ensures MetadataKept(fs0, fs, l)
    ensures err.None? <==> SaveBatchOk(fs0, faults, l, buffer, k)
    ensures err.None? ==> PayloadsWritten(fs, l, buffer, seqLengths, k)
    ensures err.None? ==> MetadataWritten(fs0, fs, l, run, buffer)
    ensures fs0.Keys <= fs.Keys
    ensures MetadataSound(fs0, fs, l, run, buffer)
  {
    fs := fs0;
    err := None;
    var j := 0;
    while j < |buffer| && err.None?
      invariant 0 <= j <= |buffer|
      invariant Framed(fs0, fs, l, buffer[..j], k)
      invariant MetadataKept(fs0, fs, l)
      invariant err.None? ==> SaveBatchOk(fs0, faults, l, buffer[..j], k)
      invariant err.None? ==> PayloadsWritten(fs, l, buffer[..j], seqLengths, k)
      invariant err.None? ==> MetadataWritten(fs0, fs, l, run, buffer[..j])
      invariant err.Some? ==> !SaveBatchOk(fs0, faults, l, buffer, k)
      invariant fs0.Keys <= fs.Keys
      invariant MetadataSound(fs0, fs, l, run, buffer[..j])
    {
      var rec := buffer[j];
      assert buffer[..j + 1] == buffer[..j] + [rec];
      var e := SaveRecord(fs, faults, l, run, rec, seqLengths, k);
      StepFramed(fs0, fs, faults, l, run, buffer[..j], rec, seqLengths, k);
      StepSound(fs0, fs, faults, l, run, buffer[..j], rec, seqLengths, k);
      if e.error.Some? {
        StepFails(fs0, fs, faults, l, run, buffer[..j], rec, seqLengths, k);
        PrefixNotOk(fs0, faults, l, buffer, j + 1, k);
      } else {
        StepSucceeds(fs0, fs, faults, l, run, buffer[..j], rec, seqLengths, k);
      }
      fs, err := e.fs, e.error;
      j := j + 1;
    }
    if err.None? {
      assert buffer[..j] == buffer;
    }
    SoundPrefix(fs0, fs, l, run, buffer, j);
  }

  /** Saving one more record keeps every new metadata document sound: a
      document written now is the record's own, and its layer had none. */
  lemma StepSound(fs0: FileSystem, fs: FileSystem, faults: set<Path>, l: Layout, run: RunMetadata,
                  prefix: seq<Record>, rec: Record, seqLengths: seq<nat>, k: nat)
    requires MetadataWritten(fs0, fs, l, run, prefix)
    requires MetadataSound(fs0, fs, l, run, prefix)
    ensures MetadataSound(fs0, SaveRecord(fs, faults, l, run, rec, seqLengths, k).fs, l, run, prefix + [rec])
  {
    var e := SaveRecord(fs, faults, l, run, rec, seqLengths, k);
    var all := prefix + [rec];
    NamesAppend(prefix, [rec]);
    forall n | MetaPath(l, n) in e.fs && MetaPath(l, n) !in fs0
      ensures n in Names(all)
      ensures BuildMetadata(run, FirstWith(all, n)).Ok?
      ensures e.fs[MetaPath(l, n)] == MetadataDoc(BuildMetadata(run, FirstWith(all, n)).value)
    {
      if MetaPath(l, n) in fs {
        FirstWithAppend(prefix, [rec], n);
      } else {
        assert n in Names([rec]);
        FirstWithAppend(prefix, [rec], n);
      }
    }
  }

  /** Soundness over a prefix of the buffer is soundness over the buffer: a
      layer's earliest record in the prefix is its earliest overall. */
  lemma SoundPrefix(fs0: FileSystem, fs: FileSystem, l: Layout, run: RunMetadata, buffer: seq<Record>, j: nat)
    requires j <= |buffer|
    requires MetadataSound(fs0, fs, l, run, buffer[..j])
    ensures MetadataSound(fs0, fs, l, run, buffer)
  {
    assert buffer == buffer[..j] + buffer[j..];
    NamesAppend(buffer[..j], buffer[j..]);
    forall n | MetaPath(l, n) in fs && MetaPath(l, n) !in fs0
      ensures n in Names(buffer) && FirstWith(buffer, n) == FirstWith(buffer[..j], n)
    {
      FirstWithAppend(buffer[..j], buffer[j..], n);
    }
  }

  lemma StepFramed(fs0: FileSystem, fs: FileSystem, faults: set<Path>, l: Layout, run: RunMetadata,
                   prefix: seq<Record>, rec: Record, seqLengths: seq<nat>, k: nat)
    requires Framed(fs0, fs, l, prefix, k)
    requires MetadataKept(fs0, fs, l)
    ensures Framed(fs0, SaveRecord(fs, faults, l, run, rec, seqLengths, k).fs, l, prefix + [rec], k)
    ensures MetadataKept(fs0, SaveRecord(fs, faults, l, run, rec, seqLengths, k).fs, l)
  {
    var e := SaveRecord(fs, faults, l, run, rec, seqLengths, k);
    NamesAppend(prefix, [rec]);
    forall p | !BatchTouched(l, prefix + [rec], k, p) ensures Agree(fs0, e.fs, p) {
      assert !BatchTouched(l, prefix, k, p);
      assert p != MetaPath(l, rec.name) && p != PayloadPath(l, rec.name, k);
    }
  }

  lemma StepFails(fs0: FileSystem, fs: FileSystem, faults: set<Path>, l: Layout, run: RunMetadata,
                  prefix: seq<Record>, rec: Record, seqLengths: seq<nat>, k: nat)
    requires Framed(fs0, fs, l, prefix, k)
    requires MetadataWritten(fs0, fs, l, run, prefix)
    requires SaveRecord(fs, faults, l, run, rec, seqLengths, k).error.Some?
    ensures !SaveBatchOk(fs0, faults, l, prefix + [rec], k)
  {
    var all := prefix + [rec];
    NamesAppend(prefix, [rec]);
    assert rec.name in Names(all);
    FirstWithAppend(prefix, [rec], rec.name);
    if rec.name !in Names(prefix) {
      assert !BatchTouched(l, prefix, k, MetaPath(l, rec.name));
      assert FirstWith(all, rec.name) == FirstWith([rec], rec.name) == rec;
    }
  }

  lemma StepSucceeds(fs0: FileSystem, fs: FileSystem, faults: set<Path>, l: Layout, run: RunMetadata,
                     prefix: seq<Record>, rec: Record, seqLengths: seq<nat>, k: nat)
    requires Framed(fs0, fs, l, prefix, k)
    requires SaveBatchOk(fs0, faults, l, prefix, k)
    requires PayloadsWritten(fs, l, prefix, seqLengths, k)
    requires MetadataWritten(fs0, fs, l, run, prefix)
    requires SaveRecord(fs, faults, l, run, rec, seqLengths, k).error.None?
    ensures SaveBatchOk(fs0, faults, l, prefix + [rec], k)
    ensures PayloadsWritten(SaveRecord(fs, faults, l, run, rec, seqLengths, k).fs, l, prefix + [rec], seqLengths, k)
    ensures MetadataWritten(fs0, SaveRecord(fs, faults, l, run, rec, seqLengths, k).fs, l, run, prefix + [rec])
  {
    var all := prefix + [rec];
    NamesAppend(prefix, [rec]);
    if rec.name !in Names(prefix) {
      assert !BatchTouched(l, prefix, k, MetaPath(l, rec.name));
    }
    forall n | n in Names(all)
      ensures FirstWith(all, n) == (if n in Names(prefix) then FirstWith(prefix, n) else rec)
    {
      FirstWithAppend(prefix, [rec], n);
    }
    StepPayloads(fs, faults, l, run, prefix, rec, seqLengths, k);
    StepMetadata(fs0, fs, faults, l, run, prefix, rec, seqLengths, k);
  }

  lemma StepPayloads(fs: FileSystem, faults: set<Path>, l: Layout, run: RunMetadata,
                     prefix: seq<Record>, rec: Record, seqLengths: seq<nat>, k: nat)
    requires PayloadsWritten(fs, l, prefix, seqLengths, k)
    requires SaveRecord(fs, faults, l, run, rec, seqLengths, k).error.None?
    ensures PayloadsWritten(SaveRecord(fs, faults, l, run, rec, seqLengths, k).fs, l, prefix + [rec], seqLengths, k)
  {
    var e := SaveRecord(fs, faults, l, run, rec, seqLengths, k);
    var all := prefix + [rec];
    NamesAppend(prefix, [rec]);
    assert all[..|all| - 1] == prefix;
    forall n | n in Names(all)
      ensures PayloadPath(l, n, k) in e.fs && e.fs[PayloadPath(l, n, k)] == PayloadDoc(LastWith(all, n).output, seqLengths)
    {
      if n != rec.name {
        assert PayloadPath(l, n, k) != MetaPath(l, rec.name) && PayloadPath(l, n, k) != PayloadPath(l, rec.name, k);
        assert Agree(fs, e.fs, PayloadPath(l, n, k));
        assert LastWith(all, n) == LastWith(prefix, n);
      } else {
        assert LastWith(all, n) == rec;
      }
    }
  }

  lemma StepMetadata(fs0: FileSystem, fs: FileSystem, faults: set<Path>, l: Layout, run: RunMetadata,
                     prefix: seq<Record>, rec: Record, seqLengths: seq<nat>, k: nat)
    requires Framed(fs0, fs, l, prefix, k)
    requires MetadataWritten(fs0, fs, l, run, prefix)
    requires SaveRecord(fs, faults, l, run, rec, seqLengths, k).error.None?
    requires forall n :: n in Names(prefix + [rec]) ==>
               FirstWith(prefix + [rec], n) == (if n in Names(prefix) then FirstWith(prefix, n) else rec)
    ensures MetadataWritten(fs0, SaveRecord(fs, faults, l, run, rec, seqLengths, k).fs, l, run, prefix + [rec])
  {
    var e := SaveRecord(fs, faults, l, run, rec, seqLengths, k);
    var all := prefix + [rec];
    NamesAppend(prefix, [rec]);
    forall n | n in Names(all)
      ensures MetaPath(l, n) in e.fs
      ensures MetaPath(l, n) in fs0 ==> e.fs[MetaPath(l, n)] == fs0[MetaPath(l, n)]
      ensures MetaPath(l, n) !in fs0 ==>
                BuildMetadata(run, FirstWith(all, n)).Ok? &&
                e.fs[MetaPath(l, n)] == MetadataDoc(BuildMetadata(run, FirstWith(all, n)).value)
    {
      if n != rec.name {
        assert MetaPath(l, n) != MetaPath(l, rec.name) && MetaPath(l, n) != PayloadPath(l, rec.name, k);
        assert Agree(fs, e.fs, MetaPath(l, n));
      } else if n !in Names(prefix) {
        assert !BatchTouched(l, prefix, k, MetaPath(l, n));
      }
    }
  }

  /** A failure on a prefix of the buffer is a failure of the whole buffer. */
  lemma PrefixNotOk(fs0: FileSystem, faults: set<Path>, l: Layout, buffer: seq<Record>, j: nat, k: nat)
    requires j <= |buffer|
    requires !SaveBatchOk(fs0, faults, l, buffer[..j], k)
    ensures !SaveBatchOk(fs0, faults, l, buffer, k)
  {
    var n :| n in Names(buffer[..j]) && !(
      && PayloadPath(l, n, k) !in faults
      && (MetaPath(l, n) !in fs0 ==> |FirstWith(buffer[..j], n).output.shape| > 0 && MetaPath(l, n) !in faults));
    assert buffer == buffer[..j] + buffer[j..];
    NamesAppend(buffer[..j], buffer[j..]);
    FirstWithAppend(buffer[..j], buffer[j..], n);
  }
}

=== FILE: text.dfy ===
/** The string operations the run relies on: substring search (the layer-kind
    test), single-character replacement (the dataset name) and decimal
    rendering of batch indices (the payload file names). */
module Text {

  /** `pat` occurs in `s` starting at position `i`. */
  predicate OccursAt(s: string, pat: string, i: int)
  {
    0 <= i && i + |pat| <= |s| && s[i..i + |pat|] == pat
  }

  lemma OccursShift(s: string, pat: string)
    requires 1 <= |s|
    ensures (exists i :: OccursAt(s[1..], pat, i)) <==> (exists j :: 1 <= j && OccursAt(s, pat, j))
  {
    if exists i :: OccursAt(s[1..], pat, i) {
      var i :| OccursAt(s[1..], pat, i);
      assert s[1..][i..i + |pat|] == s[i + 1..i + 1 + |pat|];
      assert OccursAt(s, pat, i + 1);
    }
    if exists j :: 1 <= j && OccursAt(s, pat, j) {
      var j :| 1 <= j && OccursAt(s, pat, j);
      assert s[1..][j - 1..j - 1 + |pat|] == s[j..j + |pat|];
      assert OccursAt(s[1..], pat, j - 1);
    }
  }

  /** Python's `pat in s` on strings. */
  function Contains(s: string, pat: string): (r: bool)
    ensures r <==> exists i :: OccursAt(s, pat, i)
    decreases |s|
  {
    if |s| < |pat| then false
    else if s[..|pat|] == pat then assert OccursAt(s, pat, 0); true
    else
      assert !OccursAt(s, pat, 0);
      OccursShift(s, pat);
      Contains(s[1..], pat)
  }

  /** Python's `s.replace(from, to)` for one-character arguments: every
      occurrence of `from` becomes `to`, everything else stays in place. */
  function ReplaceChar(s: string, from: char, to: char): (r: string)
    ensures |r| == |s|
    ensures forall i :: 0 <= i < |s| ==> r[i] == (if s[i] == from then to else s[i])
  {
    if |s| == 0 then []
    else ReplaceChar(s[..|s| - 1], from, to) + [if s[|s| - 1] == from then to else s[|s| - 1]]
  }

  predicate IsDigit(c: char)
  {
    '0' <= c <= '9'
  }

  function DigitChar(d: nat): (c: char)
    requires d < 10
  {
    (48 + d) as char
  }

  function DigitValue(c: char): nat
    requires IsDigit(c)
  {
    c as int - 48
  }

  predicate AllDigits(s: string)
  {
    forall i :: 0 <= i < |s| ==> IsDigit(s[i])
  }

  /** Python's `str(n)` / `f"{n}"` for a non-negative integer: decimal digits,
      no leading zero unless the number is zero itself. */
  function NatToString(n: nat): (s: string)
    ensures 1 <= |s|
    ensures AllDigits(s)
    ensures s[0] == '0' ==> n == 0
    decreases n
  {
    if n < 10 then [DigitChar(n)]
    else NatToString(n / 10) + [DigitChar(n % 10)]
  }

  /** Reads a string of decimal digits back as a number. */
  function ParseDecimal(s: string): nat
    requires AllDigits(s)
  {
    if |s| == 0 then 0
    else ParseDecimal(s[..|s| - 1]) * 10 + DigitValue(s[|s| - 1])
  }

  /** Decimal rendering is undone by parsing. */
  lemma {:induction false} ParseNatToString(n: nat)
    ensures ParseDecimal(NatToString(n)) == n
    decreases n
  {
    if n >= 10 {
      var s := NatToString(n);
      var init := NatToString(n / 10);
      assert s[..|s| - 1] == init;
      ParseNatToString(n / 10);
    }
  }

  /** Distinct numbers render as distinct strings. */
  lemma NatToStringInjective(a: nat, b: nat)
    ensures NatToString(a) == NatToString(b) ==> a == b
  {
    ParseNatToString(a);
    ParseNatToString(b);
  }
}

=== FILE: types.dfy ===
/** Shared vocabulary of the activation-farming run: tensors, layer outputs,
    captured records, file-system paths, and the errors a run can raise. */
module Types {

  datatype Option<+T> = None | Some(value: T)

  /** A tensor is opaque apart from its shape; `id` stands for its contents,
      so two tensors of the same shape can still differ. */
  datatype Tensor = Tensor(shape: seq<nat>, id: nat)

  /** What a layer's forward call returns: a tensor, a tuple of values, or
      anything else (a list, `None`, ...). */
  datatype Output = TensorOut(tensor: Tensor) | TupleOut(items: seq<Output>) | OtherOut

  /** One entry of the activation buffer: the hooked layer's name and the
      tensor captured from it. */
  datatype Record = Record(name: string, output: Tensor)

  /** One forward invocation of a named layer during a forward pass. */
  datatype Firing = Firing(layer: string, output: Output)

  /** A file path: the directory components and the file name. */
  datatype Path = Path(dir: seq<string>, file: string)

  /** The exceptions the run can raise. */
  datatype Error =
    | EmptyTupleOutput(layer: string)   // `output[0]` on an empty tuple
    | NotATensor(layer: string)         // `.to(...)` on something that is not a tensor
    | ZeroBatchSize                     // `range(0, n, 0)`
    | PrepareFailed(batchIndex: nat)    // tokenisation or padding of a batch failed
    | ModelRaised(batchIndex: nat)      // the model itself, or unpacking its result, raised
    | ScalarTensor(layer: string)       // `shape[-1]` of a 0-dimensional tensor
    | WriteFailed(path: Path)           // a file could not be written

  datatype Result<+T> = Ok(value: T) | Err(error: Error)
}
